=== FILE: README.md ===
# Hand gesture to Arduino command pipeline

A Dafny model of the core of `detector.py`, a program that watches one hand
through a camera, counts its raised fingers and drives an Arduino over a serial
link. The model covers the three parts that carry logic:

- **Finger counter** (`contar_dedos`), module `FingerCounter` over the
  landmark types of module `Landmarks`: 21 normalized points per hand; the
  thumb is raised when landmark 4 lies left of landmark 3, every other finger
  when its tip (8, 12, 16, 20) lies above the landmark two indices below it.
  The tests run in order inside one guarded block, so a missing landmark ends
  the block and the count reached so far is returned.
- **Dispatcher** (the state `ultimos_dedos`/`ultimo_envio` and its update in
  the main loop), module `Dispatcher`: a pure `Step` over a `State` record,
  folded over a sequence of per-frame observations (`Run`, `Emitted`).
  A visible hand sends on a change of count, rate-limited to one send per
  0.3 s since the last hand-triggered send; losing the hand sends 0 once,
  without touching the timer.
- **Wire encoding** (`enviar_comando_arduino`), module `Wire`: the text of
  `100 + n` in ASCII decimal followed by one line feed, with `Decode` as its
  inverse.

Module `Session` joins them: frames are counted, dispatched, written as
commands when the port is open, and a final 0 command is written on exit.

Coordinates and clock readings are `real`: the program only compares them
(and subtracts two clock readings once). The camera, the hand detector, the
clock and the serial port are parameters: a session is a sequence of frames,
each either a detected landmark set with its clock reading or no hand, plus
a flag saying whether the port is open.

Where the code and its documentation differ, the model follows the code:

- The comment in the counter's error handler says the count falls back to 0;
  the code returns the partial count (`PartialCountKept`: a 20-point set whose
  five tests all hold counts 4). A policy that skips only the finger whose
  landmark is missing gives the same answer on sequence-shaped landmark sets,
  because a missing index means every higher index is missing too
  (`CountMatchesPerFingerPolicy`).
- The timer starts at 0, not at minus infinity, so a first hand frame whose
  clock reading is at most 0.3 sends nothing (`FirstHandFrame`). With the
  wall clock the program reads, every real frame is past that point.

## Model

| member | source | states |
|---|---|---|
| Landmarks.Get | detector.py:147-153 | looking up landmark i succeeds exactly when i is within the set, and then gives that landmark; otherwise it is the failing access |
| FingerCounter.CountFingers | detector.py:128-159 | the count never fails and is at most 5, so it always indexes the six-entry colour table |
| FingerCounter.CountFrom | detector.py:144-157 | the guarded block never lowers the running count and adds at most one per finger still to be judged |
| FingerCounter.CountFromSuffix | detector.py:144-159 | run from any finger before the first one with a missing landmark, the block ends with exactly the extended fingers up to that missing one: the failed lookup stops it and nothing after it is counted |
| FingerCounter.Judge | detector.py:147-153 | a finger's lookups succeed exactly when its tip and reference landmarks exist, and its verdict is then the axis comparison of those two landmarks |
| FingerCounter.CountStopsAtFirstMissing | detector.py:144-159 | on any set the count equals the number of extended fingers before the first finger with a missing landmark; later fingers are not counted |
| FingerCounter.CountMatchesPerFingerPolicy | detector.py:144-159 | the count equals the policy that skips only a finger with a missing landmark and still judges the others |
| FingerCounter.CountOnCompleteSet | detector.py:142-154 | on a full set the count is [x4 < x3] + [y8 < y6] + [y12 < y10] + [y16 < y14] + [y20 < y18] |
| FingerCounter.FiveIffAllRaised | detector.py:142-154 | a full set counts 5 if and only if all five tests hold |
| FingerCounter.ZeroIffNoneRaised | detector.py:142-154 | a full set counts 0 if and only if no test holds |
| FingerCounter.NothingCountedWithoutThumbTip | detector.py:144-159 | a set without landmark 4 counts 0 |
| FingerCounter.ThumbOnlyBeforeIndexTip | detector.py:144-159 | a set holding landmark 4 but not landmark 8 counts exactly the thumb's test, not 0 |
| FingerCounter.PartialCountKept | detector.py:152-159 | a 20-point set whose tests all hold counts 4 (the block keeps the partial count) while its 21-point extension counts 5 |
| Wire.Encode | detector.py:170-171 | a command is non-empty, ends with a line feed and has no other line feed |
| Wire.NatDigits | detector.py:171 | the decimal text of a number is non-empty, all digits, and has no leading zero |
| Wire.DecimalRoundTrip | detector.py:171 | parsing the decimal text of any integer gives the integer back |
| Wire.DecodeEncode | detector.py:171 | decoding the command for any count gives that count back |
| Wire.EncodeInjective | detector.py:171 | different counts never produce the same command |
| Wire.EncodeFingerCount | detector.py:166-171 | counts 0..5 are sent as the four characters 1, 0, the count's digit and a line feed, i.e. the commands 100..105 |
| Dispatcher.Step | detector.py:253-279 | hand present: send iff the count differs from the last sent and more than 0.3 s passed since the last hand-triggered send, and then the state becomes (count, now); hand absent: send 0 iff the last sent count is not 0, and then only the count becomes 0; nothing sent means the state is unchanged |
| Dispatcher.RunAppend | detector.py:198-279 | running two stretches of frames one after the other gives the same state and the same sends as running them joined |
| Dispatcher.LastCountIsLastSent | detector.py:253-279 | the remembered count is always the last count sent, or the starting value when nothing was sent |
| Dispatcher.NoRepeatedCommand | detector.py:253-279 | no send repeats the count sent just before it, and the first send differs from the starting remembered count |
| Dispatcher.EmittedAreSendable | detector.py:246-279 | every count sent is the count of some hand frame, or 0 when some frame had no hand |
| Dispatcher.EmittedInRange | detector.py:246-279 | when every hand count lies in a range containing 0, every count sent lies in it |
| Dispatcher.SteadyHandSendsAtMostOnce | detector.py:253-258 | a hand held with the same count over any number of frames causes at most one send, and after it that count is the remembered one |
| Dispatcher.HandLossSendsZeroOnce | detector.py:276-279 | frames without a hand send 0 at most once, only when the last count sent was not 0, leave the remembered count at 0 and never touch the timer |
| Dispatcher.TimerIsLastHandSend | detector.py:254-258 | the timer holds the clock reading of the most recent hand-triggered send, whatever hand-loss sends followed it |
| Dispatcher.HandSendsAreSpaced | detector.py:254-258 | two consecutive hand-triggered sends are more than 0.3 s apart |
| Dispatcher.FirstHandFrame | detector.py:192-194 | from the initial state (-1, 0) a hand frame sends its count exactly when its clock reading exceeds 0.3 |
| Dispatcher.SameCountTwice | detector.py:255-258 | a count seen twice is sent once, whether the second frame is inside or past the interval |
| Dispatcher.ChangeInsideInterval | detector.py:255-258 | a new count 0.2 s after a send is held back and goes out on the next frame past 0.3 s |
| Session.Observe | detector.py:226-254 | a frame with a hand gives the dispatcher a count in 0..5 and its clock reading; a frame without one gives "no hand" |
| Session.TransmitDecodes | detector.py:168-175 | with the port open every decision becomes one command line that decodes back to the decided count, in order; with the port closed nothing is written |
| Session.Shutdown | detector.py:329-331 | the exit send is a single "100\n" when the port is open and nothing otherwise, and it takes no dispatcher state |
| Session.DecisionsAreFingerCounts | detector.py:246-279 | every count a session sends lies in 0..5 and differs from the one sent before it |
| Session.HandLostAfterHistory | detector.py:271-279 | after any history, any number of frames without a hand add exactly one 0 when the remembered count (the last one sent, or -1 before any send) is not 0, and nothing otherwise |
| Session.SessionWireShape | detector.py:329-331 | with the port open a session writes one command per decision, each decoding to its count, then exactly one final 0 command, every line being one of 100..105; with the port closed it writes nothing |

## Left out

- Importing and probing MediaPipe, opening and closing the serial port, the
  start-up and shutdown sleeps: environment plumbing with no decision in it.
- Camera capture, mirroring, colour conversion and the hand detector itself:
  foreign calls. A frame whose processing raises is skipped by the loop; in the
  model such a frame is simply not in the frame sequence.
- Drawing, on-screen text, the colour rectangle, the FPS counter, key handling
  and console clearing: user interface. The colour lookup's safety is the
  bound on `CountFingers`.
- The byte write and its logging. A failed write is caught and only printed,
  and the dispatcher never sees it, so the model's output is the sequence of
  attempted writes; a write that fails on the device is not distinguished.
- The three connection checks (`arduino_conectado`, `arduino`, `is_open`) are
  one flag `connected`, fixed for the session.
- Floating-point rounding: coordinates and clock readings are exact reals.
- More than one hand per frame: the detector is configured for one hand.
- The end of the loop (a failed capture or the quit key) is the end of the
  frame sequence; the exit command follows it.
- Session.SessionWireShape: the final 0 command is promised only for the two
  `break` exits (detector.py:202-204, 312-314). The loop has no
  `try`/`finally`, so an exception escaping the loop body ends the program
  without the exit command: `fps` is first assigned at detector.py:299, only
  after a second has passed since line 196, so line 303 raises `NameError` on
  any earlier frame; the fallback drawing call (239-243) and an interrupt are
  unguarded too. A frame that fails at line 303 has already sent its decision
  (lines 253-279); one that fails at 239-243 ends the program before it is
  counted or dispatched. These are failures of the user-interface code, which is not modelled.

=== FILE: dispatcher.dfy ===
/**
 The command dispatcher: the only state of the pipeline. It remembers the
 count it last sent and the clock reading of the last send triggered by a
 visible hand, and for every frame decides whether to hand a count to the
 serial sender.

 - Hand visible: send on a change of count, rate-limited to one send per
   SendInterval since the last hand-triggered send.
 - Hand lost: send 0 once, on the edge, without consulting or moving the timer.

 The decision never depends on whether the write reached the device: the
 state advances on every decision to send.
 */
module Dispatcher {
  import opened Wrappers

  /** Seconds that must pass since the last hand-triggered send. */
  const SendInterval: real := 0.3

  /** lastCount: the count most recently sent, -1 before any send.
      lastSend: clock reading of the most recent hand-triggered send, 0 at start. */
  datatype State = State(lastCount: int, lastSend: real)

  const Initial: State := State(-1, 0.0)

  /** What one frame tells the dispatcher: a hand with its finger count and the
      clock reading taken for it, or no hand at all. */
  datatype Observation = Hand(count: int, now: real) | NoHand

  /** The state after a frame and the count handed to the sender, if any. */
  datatype Decision = Decision(next: State, sent: Option<int>)

  function Step(s: State, o: Observation): (d: Decision)
    // nothing sent: nothing changes
    ensures d.sent.None? ==> d.next == s
    // whatever is sent becomes the remembered count
    ensures d.sent.Some? ==> d.next.lastCount == d.sent.value
    ensures o.Hand? ==>
              (d.sent.Some? <==> o.count != s.lastCount && o.now - s.lastSend > SendInterval)
    ensures o.Hand? && d.sent.Some? ==> d.next == State(o.count, o.now)
    ensures o.NoHand? ==> (d.sent.Some? <==> s.lastCount != 0)
    ensures o.NoHand? ==> d.next == s.(lastCount := 0)
  {
    match o
    case Hand(count, now) =>
      if count != s.lastCount && now - s.lastSend > SendInterval then
        Decision(State(count, now), Some(count))
      else
        Decision(s, None)
    case NoHand =>
      if s.lastCount != 0 then Decision(s.(lastCount := 0), Some(0)) else Decision(s, None)
  }

  function AsSeq(o: Option<int>): seq<int> {
    match o
    case Some(v) => [v]
    case None => []
  }

  /** The state after a sequence of frames. */
  function Run(s: State, obs: seq<Observation>): State
    decreases |obs|
  {
    if |obs| == 0 then s
    else Step(Run(s, obs[..|obs| - 1]), obs[|obs| - 1]).next
  }

  /** The decision taken at frame i. */
  function SentAt(s: State, obs: seq<Observation>, i: nat): Option<int>
    requires i < |obs|
  {
    Step(Run(s, obs[..i]), obs[i]).sent
  }

  /** Every count handed to the sender over a sequence of frames, in order. */
  function Emitted(s: State, obs: seq<Observation>): seq<int>
    decreases |obs|
  {
    if |obs| == 0 then []
    else Emitted(s, obs[..|obs| - 1]) + AsSeq(SentAt(s, obs, |obs| - 1))
  }

  /** The values a sequence of frames can cause to be sent: the counts of its
      hand frames, and 0 if some frame has no hand. */
  function Sendable(obs: seq<Observation>): set<int> {
    (set o | o in obs && o.Hand? :: o.count) + (if NoHand in obs then {0} else {})
  }

  // ---------------------------------------------------------------------
  // Trace lemmas
  // ---------------------------------------------------------------------

  /** Running two stretches of frames back to back is running their concatenation. */
  lemma {:induction false} RunAppend(s: State, a: seq<Observation>, b: seq<Observation>)
    ensures Run(s, a + b) == Run(Run(s, a), b)
    ensures Emitted(s, a + b) == Emitted(s, a) + Emitted(Run(s, a), b)
    decreases |b|
  {
    if |b| == 0 {
      assert a + b == a;
    } else {
      var b' := b[..|b| - 1];
      assert (a + b)[..|a + b| - 1] == a + b';
      assert (a + b)[|a + b| - 1] == b[|b| - 1];
      RunAppend(s, a, b');
    }
  }

  /** The remembered count is always the last count sent, or the starting one
      when nothing has been sent. */
  lemma {:induction false} LastCountIsLastSent(s: State, obs: seq<Observation>)
    ensures var e := Emitted(s, obs);
            Run(s, obs).lastCount == if |e| == 0 then s.lastCount else e[|e| - 1]
    decreases |obs|
  {
    if |obs| > 0 {
      LastCountIsLastSent(s, obs[..|obs| - 1]);
    }
  }

  /** No command repeats the one sent just before it, and the first differs
      from the starting remembered count (so, from the initial state, never -1). */
  lemma {:induction false} NoRepeatedCommand(s: State, obs: seq<Observation>)
    ensures var e := Emitted(s, obs);
            (0 < |e| ==> e[0] != s.lastCount)
            && forall i :: 0 < i < |e| ==> e[i] != e[i - 1]
    decreases |obs|
  {
    if |obs| > 0 {
      var init := obs[..|obs| - 1];
      NoRepeatedCommand(s, init);
      LastCountIsLastSent(s, init);
    }
  }

  /** Every value sent is the count of some hand frame, or 0 when some frame
      had no hand. */
  lemma {:induction false} EmittedAreSendable(s: State, obs: seq<Observation>)
    ensures forall i :: 0 <= i < |Emitted(s, obs)| ==> Emitted(s, obs)[i] in Sendable(obs)
    decreases |obs|
  {
    if |obs| > 0 {
      var init := obs[..|obs| - 1];
      EmittedAreSendable(s, init);
      assert forall o :: o in init ==> o in obs;
      assert Sendable(init) <= Sendable(obs);
      assert obs[|obs| - 1] in obs;
    }
  }

  /** When every hand frame carries a count in [lo, hi] with lo <= 0 <= hi, every
      value sent lies in [lo, hi]. */
  lemma EmittedInRange(s: State, obs: seq<Observation>, lo: int, hi: int)
    requires lo <= 0 <= hi
    requires forall i :: 0 <= i < |obs| && obs[i].Hand? ==> lo <= obs[i].count <= hi
    ensures forall i :: 0 <= i < |Emitted(s, obs)| ==> lo <= Emitted(s, obs)[i] <= hi
  {
    EmittedAreSendable(s, obs);
    forall v | v in Sendable(obs)
      ensures lo <= v <= hi
    {
      if v != 0 {
        var o :| o in obs && o.Hand? && o.count == v;
        var i :| 0 <= i < |obs| && obs[i] == o;
      }
    }
  }

  /** A hand held with an unchanging count is announced at most once, and once
      announced that count is the remembered one. */
  lemma {:induction false} SteadyHandSendsAtMostOnce(s: State, obs: seq<Observation>, c: int)
    requires forall i :: 0 <= i < |obs| ==> obs[i].Hand? && obs[i].count == c
    ensures |Emitted(s, obs)| <= 1
    ensures |Emitted(s, obs)| == 1 ==> Run(s, obs).lastCount == c
    decreases |obs|
  {
    if |obs| > 0 {
      var init := obs[..|obs| - 1];
      SteadyHandSendsAtMostOnce(s, init, c);
    }
  }

  /** A stretch of frames without a hand sends 0 at most once, and only when the
      remembered count was not already 0; it leaves the timer alone. */
  lemma {:induction false} HandLossSendsZeroOnce(s: State, obs: seq<Observation>)
    requires forall i :: 0 <= i < |obs| ==> obs[i] == NoHand
    ensures Emitted(s, obs) == if 0 < |obs| && s.lastCount != 0 then [0] else []
    ensures Run(s, obs).lastSend == s.lastSend
    ensures 0 < |obs| ==> Run(s, obs).lastCount == 0
    decreases |obs|
  {
    if |obs| > 0 {
      HandLossSendsZeroOnce(s, obs[..|obs| - 1]);
    }
  }

  /** The timer holds the clock reading of the last hand-triggered send. */
  lemma {:induction false} TimerIsLastHandSend(s: State, obs: seq<Observation>, i: nat, j: nat)
    requires i < j <= |obs|
    requires obs[i].Hand? && SentAt(s, obs, i).Some?
    requires forall k :: i < k < j && obs[k].Hand? ==> SentAt(s, obs, k).None?
    ensures Run(s, obs[..j]).lastSend == obs[i].now
    decreases j
  {
    assert obs[..j][..j - 1] == obs[..j - 1];
    if j - 1 > i {
      TimerIsLastHandSend(s, obs, i, j - 1);
    }
  }

  /** Two consecutive hand-triggered sends are more than SendInterval apart,
      whatever hand-loss sends happen between them. */
  lemma HandSendsAreSpaced(s: State, obs: seq<Observation>, i: nat, j: nat)
    requires i < j < |obs|
    requires obs[i].Hand? && SentAt(s, obs, i).Some?
    requires obs[j].Hand? && SentAt(s, obs, j).Some?
    requires forall k :: i < k < j && obs[k].Hand? ==> SentAt(s, obs, k).None?
    ensures obs[j].now - obs[i].now > SendInterval
  {
    TimerIsLastHandSend(s, obs, i, j);
  }

  // ---------------------------------------------------------------------
  // Scenarios
  // ---------------------------------------------------------------------

  /** From the initial state a hand frame sends exactly when its clock reading
      exceeds SendInterval: the timer starts at 0, not at minus infinity. */
  lemma FirstHandFrame(c: int, t: real)
    requires c != Initial.lastCount
    ensures Emitted(Initial, [Hand(c, t)]) == if t > SendInterval then [c] else []
  {
    assert [Hand(c, t)][..0] == [];
  }

  /** A repeated count is not sent again, however much time has passed. */
  lemma SameCountTwice()
    ensures Emitted(Initial, [Hand(2, 1.0), Hand(2, 1.1)]) == [2]
    ensures Emitted(Initial, [Hand(2, 1.0), Hand(2, 9.0)]) == [2]
  {
  }

  /** A new count inside the interval is held back; after the interval it goes. */
  lemma ChangeInsideInterval()
    ensures Emitted(Initial, [Hand(2, 1.0), Hand(3, 1.2)]) == [2]
    ensures Emitted(Initial, [Hand(2, 1.0), Hand(3, 1.2), Hand(3, 1.4)]) == [2, 3]
  {
  }
}

=== FILE: finger_counter.dfy ===
/**
 The finger counter: a pure function from one hand's landmarks to the number
 of raised fingers. The thumb is raised when its tip lies left of the joint
 below it (the frame is mirrored); every other finger is raised when its tip
 lies above the joint two below it. The fingers are judged in order inside a
 single guarded block, so the first missing landmark abandons the remaining
 fingers and the count reached so far is returned.
 */
module FingerCounter {
  import opened Wrappers
  import opened Landmarks

  /** The axis on which a tip is compared with its reference joint. */
  datatype Axis = Horizontal | Vertical

  /** A finger as the counter sees it: the index of its tip, the index of the
      landmark the tip is compared with, and the axis of the comparison. */
  datatype Finger = Finger(tip: nat, reference: nat, axis: Axis)

  const FingerTotal: nat := 5

  /** Tips 4, 8, 12, 16, 20 (thumb, index, middle, ring, little). The thumb's
      reference is the landmark one below its tip, the others' two below. */
  const Fingers: seq<Finger> := [
    Finger(4, 3, Horizontal),
    Finger(8, 6, Vertical),
    Finger(12, 10, Vertical),
    Finger(16, 14, Vertical),
    Finger(20, 18, Vertical)
  ]

  function Indicator(b: bool): nat {
    if b then 1 else 0
  }

  /** Both landmarks the finger's test reads are present. */
  predicate Available(lms: LandmarkSet, f: Finger) {
    f.tip < |lms| && f.reference < |lms|
  }

  /** The tip lies before its reference on the finger's axis. */
  predicate TipBeyond(f: Finger, tip: Landmark, reference: Landmark) {
    match f.axis
    case Horizontal => tip.x < reference.x
    case Vertical => tip.y < reference.y
  }

  /** Reference reading of one finger on a set where its landmarks exist. */
  predicate Extended(lms: LandmarkSet, f: Finger)
    requires Available(lms, f)
  {
    TipBeyond(f, lms[f.tip], lms[f.reference])
  }

  /** Judges one finger through the failing lookups: None is the raised
      IndexError, Some(b) says whether the finger is up. */
  function Judge(lms: LandmarkSet, f: Finger): (r: Option<bool>)
    ensures r.Some? <==> Available(lms, f)
    ensures r.Some? ==> (r.value <==> Extended(lms, f))
  {
    match Get(lms, f.tip)
    case None => None
    case Some(t) =>
      match Get(lms, f.reference)
      case None => None
      case Some(ref) => Some(TipBeyond(f, t, ref))
  }

  /** The guarded block from finger k on, with `acc` raised fingers so far; a
      failed lookup ends the block and leaves `acc` as it stands. */
  function CountFrom(lms: LandmarkSet, k: nat, acc: nat): (r: nat)
    requires k <= FingerTotal
    ensures acc <= r <= acc + (FingerTotal - k)
    decreases FingerTotal - k
  {
    if k == FingerTotal then acc
    else
      match Judge(lms, Fingers[k])
      case None => acc
      case Some(up) => CountFrom(lms, k + 1, acc + Indicator(up))
  }

  /** The number of raised fingers. Total: it never fails, and its result is
      always a valid index into the six-entry colour table. */
  function CountFingers(lms: LandmarkSet): (r: nat)
    ensures r <= FingerTotal
  {
    CountFrom(lms, 0, 0)
  }

  // ---------------------------------------------------------------------
  // Independent readings of the count
  // ---------------------------------------------------------------------

  /** Position in `Fingers` of the first finger with a missing landmark, or 5. */
  function FirstMissingFrom(lms: LandmarkSet, k: nat): (m: nat)
    requires k <= FingerTotal
    ensures k <= m <= FingerTotal
    ensures forall j :: k <= j < m ==> Available(lms, Fingers[j])
    ensures m < FingerTotal ==> !Available(lms, Fingers[m])
    decreases FingerTotal - k
  {
    if k == FingerTotal || !Available(lms, Fingers[k]) then k
    else FirstMissingFrom(lms, k + 1)
  }

  function FirstMissing(lms: LandmarkSet): (m: nat)
    ensures m <= FingerTotal
    ensures forall j :: 0 <= j < m ==> Available(lms, Fingers[j])
    ensures m < FingerTotal ==> !Available(lms, Fingers[m])
  {
    FirstMissingFrom(lms, 0)
  }

  /** How many of the first k fingers are extended, all of them available. */
  function ExtendedAmong(lms: LandmarkSet, k: nat): (n: nat)
    requires k <= FingerTotal
    requires forall j :: 0 <= j < k ==> Available(lms, Fingers[j])
    ensures n <= k
  {
    if k == 0 then 0
    else ExtendedAmong(lms, k - 1) + Indicator(Extended(lms, Fingers[k - 1]))
  }

  /** The per-finger policy: a finger with a missing landmark contributes 0 and
      the fingers after it are still judged. */
  function SkipMissingCount(lms: LandmarkSet, k: nat): (n: nat)
    requires k <= FingerTotal
    ensures n <= k
  {
    if k == 0 then 0
    else
      var f := Fingers[k - 1];
      SkipMissingCount(lms, k - 1) + Indicator(Available(lms, f) && Extended(lms, f))
  }

  // ---------------------------------------------------------------------
  // Lemmas
  // ---------------------------------------------------------------------

  lemma {:induction false} CountFromSuffix(lms: LandmarkSet, k: nat, m: nat)
    requires k <= m <= FingerTotal
    requires forall j :: 0 <= j < m ==> Available(lms, Fingers[j])
    requires m < FingerTotal ==> !Available(lms, Fingers[m])
    ensures CountFrom(lms, k, ExtendedAmong(lms, k)) == ExtendedAmong(lms, m)
    decreases FingerTotal - k
  {
    if k < m {
      assert Judge(lms, Fingers[k]) == Some(Extended(lms, Fingers[k]));
      CountFromSuffix(lms, k + 1, m);
    } else if k < FingerTotal {
      assert Judge(lms, Fingers[k]) == None;
    }
  }

  /** On any landmark set, complete or not, the count is the number of raised
      fingers judged before the first finger whose landmarks are missing;
      fingers after that one are never counted. */
  lemma CountStopsAtFirstMissing(lms: LandmarkSet)
    ensures CountFingers(lms) == ExtendedAmong(lms, FirstMissing(lms))
  {
    CountFromSuffix(lms, 0, FirstMissing(lms));
  }

  /** Tips grow along `Fingers`, so once a finger is missing every later one is. */
  lemma {:induction false} MissingIsFinal(lms: LandmarkSet, j: nat)
    requires FirstMissing(lms) <= j < FingerTotal
    ensures !Available(lms, Fingers[j])
  {
    var m := FirstMissing(lms);
    assert !Available(lms, Fingers[m]);
    assert Fingers[m].tip <= Fingers[j].tip;
  }

  lemma {:induction false} SkipMissingAgrees(lms: LandmarkSet, k: nat)
    requires k <= FingerTotal
    ensures SkipMissingCount(lms, k) ==
            ExtendedAmong(lms, if k <= FirstMissing(lms) then k else FirstMissing(lms))
  {
    if k > 0 {
      SkipMissingAgrees(lms, k - 1);
      if k > FirstMissing(lms) {
        MissingIsFinal(lms, k - 1);
      }
    }
  }

  /** The guarded block agrees with the per-finger policy (skip a finger whose
      landmarks are missing, judge the rest), because landmark sets are
      sequences: a missing index means every higher index is missing too. */
  lemma CountMatchesPerFingerPolicy(lms: LandmarkSet)
    ensures CountFingers(lms) == SkipMissingCount(lms, FingerTotal)
  {
    CountStopsAtFirstMissing(lms);
    SkipMissingAgrees(lms, FingerTotal);
  }

  /** On a complete hand the count is the thumb's horizontal test plus the four
      vertical tests, each contributing one when it holds. */
  lemma CountOnCompleteSet(lms: LandmarkSet)
    requires |lms| >= HandLandmarkCount
    ensures CountFingers(lms) ==
              Indicator(lms[4].x < lms[3].x)
            + Indicator(lms[8].y < lms[6].y)
            + Indicator(lms[12].y < lms[10].y)
            + Indicator(lms[16].y < lms[14].y)
            + Indicator(lms[20].y < lms[18].y)
  {
  }

  /** A complete hand counts five exactly when all five tests hold. */
  lemma FiveIffAllRaised(lms: LandmarkSet)
    requires |lms| >= HandLandmarkCount
    ensures CountFingers(lms) == 5 <==>
              lms[4].x < lms[3].x && lms[8].y < lms[6].y && lms[12].y < lms[10].y
              && lms[16].y < lms[14].y && lms[20].y < lms[18].y
  {
    CountOnCompleteSet(lms);
  }

  /** A complete hand counts zero exactly when no test holds. */
  lemma ZeroIffNoneRaised(lms: LandmarkSet)
    requires |lms| >= HandLandmarkCount
    ensures CountFingers(lms) == 0 <==>
              !(lms[4].x < lms[3].x) && !(lms[8].y < lms[6].y) && !(lms[12].y < lms[10].y)
              && !(lms[16].y < lms[14].y) && !(lms[20].y < lms[18].y)
  {
    CountOnCompleteSet(lms);
  }

  /** Without the thumb tip nothing is judged, so nothing is counted. */
  lemma NothingCountedWithoutThumbTip(lms: LandmarkSet)
    requires |lms| <= 4
    ensures CountFingers(lms) == 0
  {
    CountStopsAtFirstMissing(lms);
  }

  /** With the thumb present but the index tip missing, only the thumb counts:
      the failed lookup keeps the thumb's contribution instead of resetting to 0. */
  lemma ThumbOnlyBeforeIndexTip(lms: LandmarkSet)
    requires 5 <= |lms| <= 8
    ensures CountFingers(lms) == Indicator(lms[4].x < lms[3].x)
  {
    CountStopsAtFirstMissing(lms);
    assert FirstMissing(lms) == 1;
  }

  /** n points, each lying left of and above the one before it, so that every
      finger test whose landmarks are present holds. */
  function Descending(n: nat): (lms: LandmarkSet)
    ensures |lms| == n
  {
    seq(n, i => Landmark(-(i as real), -(i as real)))
  }

  /** A 20-point set whose every finger test holds: the ring finger is the last
      one judged, so the count is 4, neither 0 nor 5; the full 21-point set
      counts 5. */
  lemma PartialCountKept()
    ensures CountFingers(Descending(HandLandmarkCount - 1)) == 4
    ensures CountFingers(Descending(HandLandmarkCount)) == 5
  {
  }
}

=== FILE: landmarks.dfy ===
/**
 Hand landmarks as produced, once per frame, by the external hand detector:
 an ordered sequence of normalized 2-D points indexed by anatomical role
 (0 = wrist, 1..4 = thumb, 5..8 = index finger, ..., 17..20 = little finger).
 Coordinates are compared only, so `real` stands in for the detector's floats;
 y grows downwards on screen.
 */
module Landmarks {
  import opened Wrappers

  datatype Landmark = Landmark(x: real, y: real)

  /** One detected hand. The detector delivers 21 points; shorter sets are
      the malformed inputs the finger counter must survive. */
  type LandmarkSet = seq<Landmark>

  const HandLandmarkCount: nat := 21

  /** Indexing `landmark[i]`: a missing index is the IndexError case. */
  function Get(lms: LandmarkSet, i: nat): (r: Option<Landmark>)
    ensures r.Some? <==> i < |lms|
    ensures r.Some? ==> r.value == lms[i]
  {
    if i < |lms| then Some(lms[i]) else None
  }
}

=== FILE: session.dfy ===
/**
 A whole session: frames go through the finger counter and the dispatcher,
 every decision to send becomes one command written to the serial port when
 it is open, and on exit one final 0 command is written. The dispatcher sees
 neither the port's state nor the outcome of a write, so its state advances
 whether or not anything reached the device.
 */
module Session {
  import opened Wrappers
  import opened Landmarks
  import opened FingerCounter
  import opened Wire
  import opened Dispatcher

  /** One acquired frame: the detector found a hand, with the clock reading
      taken for it, or it found none. */
  datatype Frame = Detected(landmarks: LandmarkSet, now: real) | Undetected

  /** The dispatcher's view of a frame. */
  function Observe(f: Frame): (o: Observation)
    ensures o.Hand? <==> f.Detected?
    ensures o.Hand? ==> 0 <= o.count <= FingerTotal && o.now == f.now
  {
    match f
    case Detected(lms, now) => Hand(CountFingers(lms), now)
    case Undetected => NoHand
  }

  function Observations(frames: seq<Frame>): (obs: seq<Observation>)
    ensures |obs| == |frames|
    ensures forall i :: 0 <= i < |frames| ==> obs[i] == Observe(frames[i])
  {
    seq(|frames|, i requires 0 <= i < |frames| => Observe(frames[i]))
  }

  /** The lines written for a sequence of decisions: one command line per
      decision when the port is open, nothing otherwise. */
  function Transmit(connected: bool, counts: seq<int>): seq<string> {
    if connected then seq(|counts|, i requires 0 <= i < |counts| => Encode(counts[i])) else []
  }

  lemma EncodingsDecode(counts: seq<int>)
    ensures forall i :: 0 <= i < |counts| ==> Decode(Encode(counts[i])) == Some(counts[i])
  {
    forall i | 0 <= i < |counts|
      ensures Decode(Encode(counts[i])) == Some(counts[i])
    {
      DecodeEncode(counts[i]);
    }
  }

  /** With the port open every line written decodes back to its decision, in
      order; with the port closed nothing is written. */
  lemma TransmitDecodes(connected: bool, counts: seq<int>)
    ensures connected ==> |Transmit(connected, counts)| == |counts|
    ensures connected ==> forall i :: 0 <= i < |counts| ==>
              Decode(Transmit(connected, counts)[i]) == Some(counts[i])
    ensures !connected ==> Transmit(connected, counts) == []
  {
    EncodingsDecode(counts);
  }

  /** The exit command: a single "100\n" when the port is open, nothing
      otherwise. It reads no dispatcher state. */
  function Shutdown(connected: bool): (w: seq<string>)
    ensures connected ==> w == ["100\n"]
    ensures !connected ==> w == []
  {
    EncodeFingerCount(0);
    Transmit(connected, [0])
  }

  /** The counts the dispatcher decides to send over a session's frames. */
  function Decisions(frames: seq<Frame>): seq<int> {
    Emitted(Initial, Observations(frames))
  }

  /** Everything a session writes to the serial port. */
  function SessionWire(connected: bool, frames: seq<Frame>): seq<string> {
    Transmit(connected, Decisions(frames)) + Shutdown(connected)
  }

  /** Every count the dispatcher sends lies in 0..5, and consecutive counts differ. */
  lemma DecisionsAreFingerCounts(frames: seq<Frame>)
    ensures forall i :: 0 <= i < |Decisions(frames)| ==> 0 <= Decisions(frames)[i] <= FingerTotal
    ensures forall i :: 0 < i < |Decisions(frames)| ==> Decisions(frames)[i] != Decisions(frames)[i - 1]
  {
    var obs := Observations(frames);
    EmittedInRange(Initial, obs, 0, FingerTotal);
    NoRepeatedCommand(Initial, obs);
  }

  /** With the port open, the session writes one line per decision, each
      decoding back to the decided count, then exactly one final 0 command;
      every line is one of the four-character commands "100\n" .. "105\n".
      With the port closed it writes nothing. */
  lemma SessionWireShape(connected: bool, frames: seq<Frame>)
    ensures !connected ==> SessionWire(connected, frames) == []
    ensures connected ==>
              var w := SessionWire(connected, frames);
              var e := Decisions(frames);
              && |w| == |e| + 1
              && Decode(w[|w| - 1]) == Some(0)
              && (forall i :: 0 <= i < |e| ==> Decode(w[i]) == Some(e[i]))
              && (forall i :: 0 <= i < |w| ==> IsFingerCommand(w[i]))
  {
    if connected {
      var e := Decisions(frames);
      DecisionsAreFingerCounts(frames);
      FingerCommandLines(e);
      EncodeFingerCount(0);
    }
  }

  /** Finger counts become command lines that decode back to them. */
  lemma FingerCommandLines(counts: seq<int>)
    requires forall i :: 0 <= i < |counts| ==> 0 <= counts[i] <= FingerTotal
    ensures forall i :: 0 <= i < |counts| ==>
              Decode(Transmit(true, counts)[i]) == Some(counts[i])
              && IsFingerCommand(Transmit(true, counts)[i])
  {
    var w := Transmit(true, counts);
    forall i | 0 <= i < |counts|
      ensures Decode(w[i]) == Some(counts[i]) && IsFingerCommand(w[i])
    {
      EncodeFingerCount(counts[i]);
    }
  }

  /** After any history, losing the hand for any number of frames adds at most
      one 0 to the decisions: exactly one when the last count sent was not 0
      (or nothing had been sent yet), none otherwise. */
  lemma HandLostAfterHistory(history: seq<Frame>, lost: seq<Frame>)
    requires forall i :: 0 <= i < |lost| ==> lost[i] == Undetected
    ensures var before := Run(Initial, Observations(history));
            Decisions(history + lost)
              == Decisions(history) + (if 0 < |lost| && before.lastCount != 0 then [0] else [])
  {
    assert Observations(history + lost) == Observations(history) + Observations(lost);
    RunAppend(Initial, Observations(history), Observations(lost));
    HandLossSendsZeroOnce(Run(Initial, Observations(history)), Observations(lost));
  }

  /** One of the six command lines "100\n" .. "105\n". */
  predicate IsFingerCommand(m: string) {
    |m| == 4 && m[0] == '1' && m[1] == '0' && '0' <= m[2] <= '5' && m[3] == Terminator
  }
}

=== FILE: wire.dfy ===
/**
 The serial protocol: the command for a finger count n is the decimal text of
 100 + n followed by a single line feed, written as ASCII. The receiving
 microcontroller is opaque; Decode is the named inverse of the encoding.
 */
module Wire {
  import opened Wrappers

  const CommandOffset: int := 100
  const Terminator: char := '\n'

  predicate IsDigit(c: char) {
    '0' <= c <= '9'
  }

  predicate AllDigits(s: string) {
    forall i :: 0 <= i < |s| ==> IsDigit(s[i])
  }

  function DigitChar(d: nat): (c: char)
    requires d < 10
    ensures IsDigit(c)
  {
    (48 + d) as char
  }

  function DigitValue(c: char): (d: nat)
    requires IsDigit(c)
    ensures d < 10
  {
    c as int - 48
  }

  /** Decimal digits of v, most significant first, without leading zeros. */
  function NatDigits(v: nat): (s: string)
    ensures 0 < |s|
    ensures AllDigits(s)
    ensures s[0] == '0' ==> v == 0
    decreases v
  {
    if v < 10 then [DigitChar(v)] else NatDigits(v / 10) + [DigitChar(v % 10)]
  }

  /** The text Python's `str` gives an integer: a minus sign for negatives. */
  function IntToDecimal(v: int): (s: string)
    ensures 0 < |s|
    ensures Terminator !in s
  {
    if v < 0 then "-" + NatDigits(-v) else NatDigits(v)
  }

  /** The command text for n fingers. */
  function Encode(n: int): (m: string)
    ensures 0 < |m| && m[|m| - 1] == Terminator
    ensures forall i :: 0 <= i < |m| - 1 ==> m[i] != Terminator
  {
    IntToDecimal(CommandOffset + n) + [Terminator]
  }

  /** Value of a run of digits read most significant first. */
  function DigitsValue(s: string): nat
    requires AllDigits(s)
    decreases |s|
  {
    if |s| == 0 then 0 else DigitsValue(s[..|s| - 1]) * 10 + DigitValue(s[|s| - 1])
  }

  /** An optional minus sign followed by at least one digit. */
  function ParseDecimal(s: string): Option<int> {
    if 0 < |s| && s[0] == '-' then
      if 1 < |s| && AllDigits(s[1..]) then Some(0 - DigitsValue(s[1..]) as int) else None
    else if 0 < |s| && AllDigits(s) then Some(DigitsValue(s))
    else None
  }

  /** Recovers the finger count from one command line; None for anything that
      is not a decimal integer followed by exactly one terminator. */
  function Decode(m: string): Option<int> {
    if 0 < |m| && m[|m| - 1] == Terminator then
      match ParseDecimal(m[..|m| - 1])
      case Some(v) => Some(v - CommandOffset)
      case None => None
    else None
  }

  lemma {:induction false} DigitsRoundTrip(v: nat)
    ensures DigitsValue(NatDigits(v)) == v
    decreases v
  {
    if v >= 10 {
      var s := NatDigits(v);
      assert s[..|s| - 1] == NatDigits(v / 10);
      DigitsRoundTrip(v / 10);
    }
  }

  lemma DecimalRoundTrip(v: int)
    ensures ParseDecimal(IntToDecimal(v)) == Some(v)
  {
    var s := IntToDecimal(v);
    if v < 0 {
      var d := NatDigits(-v);
      assert s == "-" + d;
      assert s[0] == '-' && s[1..] == d;
      DigitsRoundTrip(-v);
    } else {
      assert s == NatDigits(v);
      assert IsDigit(s[0]);
      DigitsRoundTrip(v);
    }
  }

  /** Decoding a command gives back the count it was built from, for every
      integer count. */
  lemma DecodeEncode(n: int)
    ensures Decode(Encode(n)) == Some(n)
  {
    var m := Encode(n);
    assert m[..|m| - 1] == IntToDecimal(CommandOffset + n);
    DecimalRoundTrip(CommandOffset + n);
  }

  /** Distinct counts never share a command. */
  lemma EncodeInjective(a: int, b: int)
    requires Encode(a) == Encode(b)
    ensures a == b
  {
    DecodeEncode(a);
    DecodeEncode(b);
  }

  /** A finger count 0..5 is sent as the four characters '1', '0', its digit
      and the terminator, i.e. one of the commands 100..105. */
  lemma EncodeFingerCount(n: int)
    requires 0 <= n <= 5
    ensures Encode(n) == ['1', '0', DigitChar(n), Terminator]
    ensures Decode(Encode(n)) == Some(n)
  {
    var v := CommandOffset + n;
    assert NatDigits(v / 10) == NatDigits(10) == ['1', '0'];
    DecodeEncode(n);
  }
}

=== FILE: wrappers.dfy ===
/** The Option type used for lookups that may fail and for "maybe sent" decisions. */
module Wrappers {

  datatype Option<+T> = None | Some(value: T)
}
